=== FILE: README.md ===
# meraki-naemon check logic in Dafny

`meraki_api.py` is a Nagios/Naemon plugin for Cisco Meraki devices. Each `--type` runs one check
function. The function asks the Meraki Dashboard API for one value, classifies it, prints a status
line and exits with the Nagios code (0 OK, 1 WARNING, 2 CRITICAL, 3 UNKNOWN). Where a check defines
performance data, the line follows the plugin output convention from the "Performance data" section
of the Nagios Plugin Development Guidelines: text, then `" | "`, then `key=value;warn;crit;min;max`.

This project models the decision-and-formatting part of every check, plus the device/type
dispatch at the bottom of the script. Each check is a pure function. It takes the outcome of its
request, `Fetch<T> = FetchFailed | Fetched(value)`, where `FetchFailed` stands for the bare
`except:` branch. It returns `Option<Report>`: `Report(exitCode, output)` is what the script prints
before `exit`, and `None` means the function falls through every branch and prints nothing.

Modules:
- `Wrappers`: `Option`.
- `Decimal`: Python's `str(int)` (`IntToString`) and the parse that reads it back.
- `Text`: Python's `sep.join` and `str.split`, first-occurrence character search.
- `PyJson`: the decoded JSON scalars (`JNull | JBool | JInt | JStr`) and Python's `str()` of each.
- `Plugin`: the perf-data token, and the host-side parse of a full output line (`ParseOutput`, `ParsePerf`).
- `Checks`: one function per check function of the script.
- `CheckProperties`: exit-code reachability, the comparison with the usual most-severe-first threshold policy, what a host reads back from each output, and worked examples.
- `Dispatch`: the `--device`/`--type` chain and the exit codes each check can reach (`CanExit`).

The model follows the code as written, including its quirks:
- The threshold chains test OK first and then WARNING with an overlapping condition, so no
  threshold check ever exits 2. This covers latency (`<= 128`, then `>= 128`), the four
  connection stages (`< w`, then `>= w`), clients (`>= 5`, then `< 5`) and failed connections
  (`>= 0` first, so it always exits 0).
- `licensestate` exits 2 when the fetch fails and 1 for a bad license.
- `portstat` and `poeport` compare the raw field with the strings `'True'` and `'False'`. A JSON
  boolean matches neither, so those checks print nothing for it (`SwitchFlagsIgnoreBooleans`).
- `ssidstatus` compares `str(enabled)`, so the boolean and the string spellings agree.

Where the code parts from the usual most-severe-first plugin policy (`CanonicalTier`: CRITICAL at
or above the critical threshold, else WARNING at or above the warning threshold, else OK):
- `StageVersusCanonical` and `LatencyVersusCanonical` state exactly where the two policies
  disagree: every CRITICAL value is reported as WARNING.
- A most-severe-first ladder with warning threshold 128 would call 128 ms WARNING. The code calls it OK.
- The token of the failed-connections check prints 15 and 25 as its thresholds, while the ladder
  compares against 10 and 20 behind a `>= 0` test, so the exit code ignores both pairs.
- A failed request exits 3 in every check except `licensestate`, which exits 2.

A host splits the output at the first `'|'`. A MAC address, failure step, client description or
IP that contains `'|'` therefore moves the start of the performance data into the detail lines
(`BarInTextMisreads`). The read-back lemmas state what the host reads when no field holds one.

## Model

| member | source | states |
|---|---|---|
| Decimal.NatToString | meraki_api.py:199 | the decimal text of a count is a non-empty run of digits with no leading zero |
| Decimal.IntToString | meraki_api.py:220 | `str(int)` yields digits with at most a leading minus sign, so it never contains a perf-data delimiter |
| Decimal.IntToStringRoundTrip | meraki_api.py:241 | every printed count parses back to exactly the integer the check compared |
| Text.SplitJoin | meraki_api.py:304 | splitting a `"\n".join` on the newline gives back the joined lines, for one or more lines none of which contains a newline |
| Plugin.PerfRoundTrip | meraki_api.py:199 | a well-formed `key=value;warn;crit;min;max` token parses back to its key and all five positional fields |
| Plugin.OutputRoundTrip | meraki_api.py:178 | a host splitting at the first bar character separates any output built from a text without a bar character, the separator and a well-formed token back into the same text and token |
| Plugin.BarInTextMisreads | meraki_api.py:304 | when the text before the separator holds a bar character, the host does not read that text back |
| Plugin.DetailLines | meraki_api.py:304 | a header, a newline and the newline-joined details split into the header then one line per detail; with no details one empty line remains |
| PyJson.PyStrIsTrue | meraki_api.py:154-159 | `str(enabled) == 'True'` holds exactly for the JSON boolean true and the string "True" |
| PyJson.PyStrIsFalse | meraki_api.py:154-162 | `str(enabled) == 'False'` holds exactly for the JSON boolean false and the string "False" |
| Checks.LicenseCheck | meraki_api.py:79-94 | always reports; exit 2 exactly on fetch failure, exit 0 exactly for status "OK", otherwise 1; the output starts with "License status is OK. " exactly when it exits 0 and with "Check Meraki AP license status. " exactly when it exits 1; the whole output is that sentence followed by "Expiration Date: " and `str()` of the date |
| Checks.UplinkCheck | meraki_api.py:96-111 | always reports; exit 3 exactly on fetch failure, exit 0 exactly for status "Active", otherwise 2; the output starts with "Uplink status is OK. " exactly when it exits 0 and with "Check Meraki AP uplink status. " exactly when it exits 2; the whole output is that sentence followed by "Public IP: " and `str()` of the address |
| Checks.SwitchFlagReport | meraki_api.py:121-127 | reports exactly for the strings "True" and "False": "True" prints "enabled: True" with exit 0, "False" prints "disabled: False" with exit 2 |
| Checks.PortCheck | meraki_api.py:113-127 | fetch failure exits 3; otherwise it reports only when `enabled` is one of the two strings: "True" prints "enabled: True" with exit 0, "False" prints "disabled: False" with exit 2 |
| Checks.PoeCheck | meraki_api.py:129-143 | fetch failure exits 3; otherwise it reports only when `poeEnabled` is one of the two strings: "True" prints "enabled: True" with exit 0, "False" prints "disabled: False" with exit 2 |
| Checks.SsidCheck | meraki_api.py:145-164 | an unconfigured name exits 1 with the fixed message; otherwise it reports exactly when `str(enabled)` is "True" (exit 0) or "False" (exit 2), printing "<name> is enabled and active." for 0 and "<name> is not enabled and active. Please login to Meraki Dashboard to check." for 2 |
| Checks.LatencyCheck | meraki_api.py:166-185 | always reports; exit 3 exactly on fetch failure, 0 exactly at or below 128, never 2; the output ends with the `latency_stat` token |
| Checks.StageCheck | meraki_api.py:187-269 | for association, authentication, DHCP and DNS counts: exit 3 exactly on fetch failure, 0 exactly below the stage's warning threshold, otherwise 1, never 2; the output ends with the stage's token |
| Checks.SuccessCheck | meraki_api.py:271-287 | exit 3 exactly on fetch failure, 0 exactly for a positive count, otherwise 2; the output ends with `conn_succ=<count>;;0;;` |
| Checks.FailureLines | meraki_api.py:302 | one "Client ... failed to connect (step: ...)" line per failure, in input order |
| Checks.CollectFailureLines | meraki_api.py:299-303 | the collecting loop yields one line per failure, in input order |
| Checks.FailedConnectionsCheck | meraki_api.py:289-310 | a fetched list always exits 0, a failed fetch exits 3; the output is the header, the detail lines and the `fail_conn` token |
| Checks.ClientLines | meraki_api.py:323 | one "Client: ... (IP: ..., Mac Address: ...)" line per client, in input order |
| Checks.CollectClientLines | meraki_api.py:320-324 | the collecting loop yields one line per client, in input order |
| Checks.ClientsCheck | meraki_api.py:312-331 | exit 3 exactly on fetch failure, 0 exactly for five or more clients, otherwise 1, so never 2 even at zero clients; the output is the header, the detail lines and the `num_clients` token |
| CheckProperties.StageVersusCanonical | meraki_api.py:198-206 | a stage check equals the most-severe-first policy with CRITICAL lowered to WARNING, and agrees with it exactly below the critical threshold |
| CheckProperties.LatencyVersusCanonical | meraki_api.py:177-185 | latency agrees with the most-severe-first policy except at exactly 128 (OK instead of WARNING) and from 512 up (WARNING instead of CRITICAL) |
| CheckProperties.ThresholdBoundaries | meraki_api.py:177-268 | 128 ms is OK; a count equal to the stage's threshold (5 associations, 10 for the others) is WARNING, one less is OK; the critical thresholds printed in the tokens are 10 for associations and 20 for the others |
| CheckProperties.StatusWordMatchesExitCode | meraki_api.py:178-286 | the status word that starts the latency, stage and success outputs names the exit code the check returns |
| CheckProperties.StageHeadlines | meraki_api.py:197-269 | each stage's output names its own counter: "Associations", "Authentications", "DHCP Requests" or "DNS Queries", then " in the past hour: " and the count, after the status word and before the stage's token |
| CheckProperties.StagePerfReadBack | meraki_api.py:199-268 | a host reading a stage output gets the stage's key, the count, its warning and critical thresholds, and empty min/max |
| CheckProperties.LatencyPerfReadBack | meraki_api.py:178-184 | when the rendered average holds no semicolon or bar character, a host reading a latency output gets `latency_stat`, the rendered average, 128 and 512 |
| CheckProperties.SuccessPerfReadBack | meraki_api.py:283-286 | a host reading a success output gets `conn_succ`, the count, an empty warning field and critical 0 |
| CheckProperties.FailuresTokenReadBack | meraki_api.py:299-304 | when no MAC or step holds a bar character, whatever newlines they hold, the host reads `fail_conn` with the count, 15 and 25 |
| CheckProperties.ClientsTokenReadBack | meraki_api.py:320-325 | when no printed client field holds a bar character, whatever newlines they hold, the host reads `num_clients` with the count, 10 and 0 |
| CheckProperties.FailuresReadBack | meraki_api.py:299-304 | when no MAC or step holds a newline or a bar character, the failed-connections output splits into the header with the count and one line per failure in order, and its token carries the count with 15 and 25 |
| CheckProperties.ClientsReadBack | meraki_api.py:320-325 | when no printed field holds a newline or a bar character, the clients output splits into the header with the count and one line per client in order, and its token carries the count with 10 and 0 |
| CheckProperties.UnconfiguredPatternIsPrefix | meraki_api.py:155 | the regular expression `^Unconfigured*` matches a name exactly when the name begins with "Unconfigure" |
| CheckProperties.SsidDecision | meraki_api.py:153-164 | an unconfigured SSID exits 1 whatever its flag; otherwise true/"True" exits 0, false/"False" exits 2, and any other value prints nothing |
| CheckProperties.SwitchFlagsIgnoreBooleans | meraki_api.py:121-143 | a JSON boolean in `enabled` or `poeEnabled` makes the port and PoE checks print nothing |
| CheckProperties.LicenseExample | meraki_api.py:89-91 | status "OK" with expiry 2025-01-01 prints "License status is OK. Expiration Date: 2025-01-01" and exits 0 |
| CheckProperties.AuthExample | meraki_api.py:222-224 | 15 authentications print "WARNING: Authentications in the past hour: 15", the separator and `conn_auth=15;10;20;;`, and exit 1 |
| CheckProperties.NoFailuresExample | meraki_api.py:304-306 | no failed connections print the zero header, an empty detail line and `fail_conn=0;15;25;;`, and exit 0 |
| Dispatch.Run | meraki_api.py:333-364 | only a type the device supports runs; its code is one `CanExit` allows for that check (license 0/1/2, SSID any, uplink/port/PoE/success 0/2/3, failed connections 0/3, the others 0/1/3); a failed fetch reports the connection error with 3, or 2 for the license check |
| Dispatch.RunPrintsItsKey | meraki_api.py:333-364 | every supported type whose request succeeded and that prints performance data runs the check whose token carries that type's own key, provided no failure or client field holds a bar character and the rendered latency holds no semicolon or bar character (`latency_stat`, `conn_assoc`, `conn_auth`, `conn_dhcp`, `conn_dns`, `conn_succ`, `fail_conn`, `num_clients`) |
| Dispatch.RunReportsUnlessSilent | meraki_api.py:333-364 | output occurs exactly for supported pairs, except a port/PoE flag that is neither string and a configured SSID whose flag is neither "True" nor "False" |
| Dispatch.PossibleCodesAreReached | meraki_api.py:333-364 | every code `CanExit` allows for a supported check is produced by some dashboard answer, so those code sets are exact |

## Left out

- Command-line parsing (meraki_api.py:10-64): argparse restricts `--device` and `--type` to their choices, so the dispatcher takes the two enumerations directly.
- HTTP requests, JSON decoding and the API key header: only the outcome of a request is modelled, as `Fetched(value)` or `FetchFailed`.
- URL construction and the `datetime.now()` one-hour and 360-second windows: these are clock and I/O concerns and do not affect any decision.
- Process `print` and `exit`: these become the returned `Report`. A check that falls through prints nothing, the script ends, and the model returns `None`. The process then exits with status 0 and empty output, which a host reads as OK with no text. This happens to a JSON boolean port or PoE flag (`SwitchFlagsIgnoreBooleans`).
- Missing JSON keys, an empty uplink list, a non-string SSID name, client MAC or failure step (line 302 concatenates both with `+`), and non-numeric counts: Python raises an uncaught KeyError, IndexError or TypeError there. The model assumes each field is present with the type the code uses.
- JSON floats, arrays and objects: `Json` has only null, booleans, integers and strings, the scalars these fields hold. `str()` of the missing kinds is not modelled.
- Checks.LatencyCheck: the average is a `real` and its text comes from the `render` parameter, because Python's float formatting is out of scope. NaN is not modelled. In Python every comparison with NaN fails, so the function would print nothing.
- Counts are unbounded integers, as Python's `int` is, so no width or wrap-around arises.

=== FILE: checks.dfy ===
/** The decision and formatting logic of each check function of the
    plugin script. Every check receives the outcome of its one dashboard
    request and yields the exit code and output it would print, or None
    when it prints nothing and returns without exiting. */
module Checks {
  import opened Wrappers
  import opened Decimal
  import opened Text
  import opened PyJson
  import opened Plugin

  /** The outcome of one `requests.get(...).json()`; a failure is anything
      the surrounding bare `except:` catches. */
  datatype Fetch<T> = FetchFailed | Fetched(value: T)

  /** What the script prints before it calls `exit`. */
  datatype Report = Report(exitCode: int, output: string)

  const Ok := 0
  const Warning := 1
  const Critical := 2
  const Unknown := 3

  const ConnectFailure := "Unable to connect to Meraki Dashboard API."

  /** The status word a plugin puts before its text for each exit code. */
  function StatusLabel(code: int): string {
    if code == Ok then "OK"
    else if code == Warning then "WARNING"
    else if code == Critical then "CRITICAL"
    else "UNKNOWN"
  }

  function Tagged(code: int, text: string): string {
    StatusLabel(code) + ": " + text
  }

  // ---------------------------------------------------------------------
  // licensestate

  datatype LicenseState = LicenseState(status: Json, expirationDate: Json)

  /** A fetch failure exits 2 here, unlike every other check; any status
      other than "OK" exits 1. The expiration date ends either message. */
  function LicenseCheck(f: Fetch<LicenseState>): (r: Option<Report>)
    ensures f.FetchFailed? ==> r == Some(Report(Critical, ConnectFailure))
    ensures r.Some? && r.value.exitCode in {Ok, Warning, Critical}
    ensures r.value.exitCode == Critical <==> f.FetchFailed?
    ensures f.Fetched? ==> (r.value.exitCode == Ok <==> f.value.status == JStr("OK"))
    ensures f.Fetched? ==> EndsWith(r.value.output, "Expiration Date: " + PyStr(f.value.expirationDate))
    ensures f.Fetched? ==> (StartsWith(r.value.output, "License status is OK. ") <==> r.value.exitCode == Ok)
    ensures f.Fetched? && r.value.exitCode == Ok ==>
              r.value.output == "License status is OK. " + ("Expiration Date: " + PyStr(f.value.expirationDate))
    ensures f.Fetched? && r.value.exitCode == Warning ==>
              r.value.output == "Check Meraki AP license status. " + ("Expiration Date: " + PyStr(f.value.expirationDate))
    ensures f.Fetched? ==> (StartsWith(r.value.output, "Check Meraki AP license status. ") <==> r.value.exitCode == Warning)
  {
    match f
    case FetchFailed => Some(Report(Critical, ConnectFailure))
    case Fetched(info) =>
      var tail := "Expiration Date: " + PyStr(info.expirationDate);
      EndsWithAppended("License status is OK. ", tail);
      EndsWithAppended("Check Meraki AP license status. ", tail);
      var good := "License status is OK. ";
      var bad := "Check Meraki AP license status. ";
      StartsWithPrepended(good, tail);
      StartsWithPrepended(bad, tail);
      StartsWithExcludes(good + tail, good, bad);
      StartsWithExcludes(bad + tail, bad, good);
      if info.status == JStr("OK") then Some(Report(Ok, good + tail))
      else if info.status != JStr("OK") then Some(Report(Warning, bad + tail))
      else None
  }

  // ---------------------------------------------------------------------
  // uplinkstatus

  /** The first entry of the uplink list. */
  datatype UplinkState = UplinkState(status: Json, publicIp: Json)

  function UplinkCheck(f: Fetch<UplinkState>): (r: Option<Report>)
    ensures f.FetchFailed? ==> r == Some(Report(Unknown, ConnectFailure))
    ensures r.Some? && r.value.exitCode in {Ok, Critical, Unknown}
    ensures r.value.exitCode == Unknown <==> f.FetchFailed?
    ensures f.Fetched? ==> (r.value.exitCode == Ok <==> f.value.status == JStr("Active"))
    ensures f.Fetched? ==> EndsWith(r.value.output, "Public IP: " + PyStr(f.value.publicIp))
    ensures f.Fetched? ==> (StartsWith(r.value.output, "Uplink status is OK. ") <==> r.value.exitCode == Ok)
    ensures f.Fetched? && r.value.exitCode == Ok ==>
              r.value.output == "Uplink status is OK. " + ("Public IP: " + PyStr(f.value.publicIp))
    ensures f.Fetched? && r.value.exitCode == Critical ==>
              r.value.output == "Check Meraki AP uplink status. " + ("Public IP: " + PyStr(f.value.publicIp))
    ensures f.Fetched? ==> (StartsWith(r.value.output, "Check Meraki AP uplink status. ") <==> r.value.exitCode == Critical)
  {
    match f
    case FetchFailed => Some(Report(Unknown, ConnectFailure))
    case Fetched(info) =>
      var tail := "Public IP: " + PyStr(info.publicIp);
      EndsWithAppended("Uplink status is OK. ", tail);
      EndsWithAppended("Check Meraki AP uplink status. ", tail);
      var good := "Uplink status is OK. ";
      var bad := "Check Meraki AP uplink status. ";
      StartsWithPrepended(good, tail);
      StartsWithPrepended(bad, tail);
      StartsWithExcludes(good + tail, good, bad);
      StartsWithExcludes(bad + tail, bad, good);
      if info.status == JStr("Active") then Some(Report(Ok, good + tail))
      else if info.status != JStr("Active") then Some(Report(Critical, bad + tail))
      else None
  }

  // ---------------------------------------------------------------------
  // portstat, poeport

  datatype SwitchPort = SwitchPort(enabled: Json, poeEnabled: Json)

  /** The raw field is compared with the strings 'True' and 'False' (no
      `str()` here), so only those two strings decide anything. */
  function SwitchFlagReport(flag: Json): (r: Option<Report>)
    ensures r.Some? <==> flag == JStr("True") || flag == JStr("False")
    ensures r.Some? ==> (r.value.exitCode == Ok <==> flag == JStr("True"))
    ensures r.Some? ==> r.value.exitCode in {Ok, Critical}
    ensures r.Some? ==> EndsWith(r.value.output, ": " + PyStr(flag))
    ensures flag == JStr("True") ==> r == Some(Report(Ok, "enabled: True"))
    ensures flag == JStr("False") ==> r == Some(Report(Critical, "disabled: False"))
  {
    assert "enabled: " + "True" == "enabled: True";
    assert "disabled: " + "False" == "disabled: False";
    if flag == JStr("True") then Some(Report(Ok, "enabled: " + PyStr(flag)))
    else if flag == JStr("False") then Some(Report(Critical, "disabled: " + PyStr(flag)))
    else None
  }

  function PortCheck(f: Fetch<SwitchPort>): (r: Option<Report>)
    ensures f.FetchFailed? ==> r == Some(Report(Unknown, ConnectFailure))
    ensures f.Fetched? ==> (r.Some? <==> f.value.enabled in {JStr("True"), JStr("False")})
    ensures f.Fetched? && f.value.enabled == JStr("True") ==> r == Some(Report(Ok, "enabled: True"))
    ensures f.Fetched? && f.value.enabled == JStr("False") ==> r == Some(Report(Critical, "disabled: False"))
    ensures r.Some? ==> r.value.exitCode in {Ok, Critical, Unknown}
  {
    match f
    case FetchFailed => Some(Report(Unknown, ConnectFailure))
    case Fetched(port) => SwitchFlagReport(port.enabled)
  }

  function PoeCheck(f: Fetch<SwitchPort>): (r: Option<Report>)
    ensures f.FetchFailed? ==> r == Some(Report(Unknown, ConnectFailure))
    ensures f.Fetched? ==> (r.Some? <==> f.value.poeEnabled in {JStr("True"), JStr("False")})
    ensures f.Fetched? && f.value.poeEnabled == JStr("True") ==> r == Some(Report(Ok, "enabled: True"))
    ensures f.Fetched? && f.value.poeEnabled == JStr("False") ==> r == Some(Report(Critical, "disabled: False"))
    ensures r.Some? ==> r.value.exitCode in {Ok, Critical, Unknown}
  {
    match f
    case FetchFailed => Some(Report(Unknown, ConnectFailure))
    case Fetched(port) => SwitchFlagReport(port.poeEnabled)
  }

  // ---------------------------------------------------------------------
  // ssidstatus

  /** The name is a string (the regular expression is applied to it directly). */
  datatype SsidSettings = SsidSettings(name: string, enabled: Json)

  const UnconfiguredStem := "Unconfigure"

  /** `re.match(r"^Unconfigured*", name)`: the pattern is "Unconfigure"
      followed by any number of 'd', anchored at the start only, so it
      matches exactly the names that begin with "Unconfigure". */
  predicate MatchesUnconfigured(name: string) {
    StartsWith(name, UnconfiguredStem)
  }

  /** The regular expression read literally: some prefix of `name` is the
      stem followed by exactly `n` letters 'd'. */
  ghost predicate PatternMatchesPrefix(name: string, n: nat) {
    |UnconfiguredStem| + n <= |name| && name[..|UnconfiguredStem| + n] == UnconfiguredStem + seq(n, _ => 'd')
  }

  ghost predicate RegexMatches(name: string) {
    exists n: nat :: PatternMatchesPrefix(name, n)
  }

  const UnconfiguredMessage := "Invalid integer. SSID referenced is unconfigured."

  function SsidCheck(f: Fetch<SsidSettings>): (r: Option<Report>)
    ensures f.FetchFailed? ==> r == Some(Report(Unknown, ConnectFailure))
    ensures f.Fetched? && MatchesUnconfigured(f.value.name) ==> r == Some(Report(Warning, UnconfiguredMessage))
    ensures f.Fetched? && !MatchesUnconfigured(f.value.name) ==>
              (r.Some? <==> PyStr(f.value.enabled) in {"True", "False"})
    ensures f.Fetched? && r.Some? && r.value.exitCode != Warning ==> StartsWith(r.value.output, f.value.name + " is ")
    ensures f.Fetched? && !MatchesUnconfigured(f.value.name) && PyStr(f.value.enabled) == "True" ==>
              r.Some? && r.value.exitCode == Ok
    ensures f.Fetched? && !MatchesUnconfigured(f.value.name) && PyStr(f.value.enabled) == "False" ==>
              r.Some? && r.value.exitCode == Critical
    ensures r.Some? && r.value.exitCode == Ok ==> f.Fetched? && PyStr(f.value.enabled) == "True"
    ensures r.Some? && r.value.exitCode == Critical ==> f.Fetched? && PyStr(f.value.enabled) == "False"
    ensures f.Fetched? && r.Some? && r.value.exitCode == Ok ==> r.value.output == f.value.name + " is " + "enabled and active."
    ensures f.Fetched? && r.Some? && r.value.exitCode == Critical ==>
              r.value.output == f.value.name + " is " + "not enabled and active. Please login to Meraki Dashboard to check."
  {
    match f
    case FetchFailed => Some(Report(Unknown, ConnectFailure))
    case Fetched(ssid) =>
      var status := PyStr(ssid.enabled);
      var lead := ssid.name + " is ";
      StartsWithPrepended(lead, "enabled and active.");
      StartsWithPrepended(lead, "not enabled and active. Please login to Meraki Dashboard to check.");
      if MatchesUnconfigured(ssid.name) then Some(Report(Warning, UnconfiguredMessage))
      else if status == "True" then Some(Report(Ok, lead + "enabled and active."))
      else if status == "False" then
        Some(Report(Critical, lead + "not enabled and active. Please login to Meraki Dashboard to check."))
      else None
  }

  // ---------------------------------------------------------------------
  // latencystats

  const LatencyWarn := 128
  const LatencyCrit := 512

  function LatencyPerf(shown: string): PerfData {
    PerfData("latency_stat", shown, IntToString(LatencyWarn), IntToString(LatencyCrit), "", "")
  }

  /** `avg` is compared as a number and printed by `render`, the host
      language's rendering of a float. The OK test `<= 128` and the WARNING
      test `>= 128` together cover every value, so CRITICAL is never reached. */
  function LatencyCheck(f: Fetch<real>, render: real -> string): (r: Option<Report>)
    ensures f.FetchFailed? ==> r == Some(Report(Unknown, ConnectFailure))
    ensures r.Some? && r.value.exitCode in {Ok, Warning, Unknown}
    ensures r.value.exitCode == Unknown <==> f.FetchFailed?
    ensures f.Fetched? ==> (r.value.exitCode == Ok <==> f.value <= LatencyWarn as real)
    ensures f.Fetched? ==> EndsWith(r.value.output, RenderPerf(LatencyPerf(render(f.value))))
  {
    match f
    case FetchFailed => Some(Report(Unknown, ConnectFailure))
    case Fetched(avg) =>
      var text := "Average latency for AP is: " + render(avg) + "ms";
      var perf := LatencyPerf(render(avg));
      if avg <= LatencyWarn as real then Some(Report(Ok, WithPerf(Tagged(Ok, text), perf)))
      else if avg >= LatencyWarn as real then Some(Report(Warning, WithPerf(Tagged(Warning, text), perf)))
      else if avg >= LatencyCrit as real then Some(Report(Critical, WithPerf(Tagged(Critical, text), perf)))
      else None
  }

  // ---------------------------------------------------------------------
  // connectionassoc, connectionauth, connectiondhcp, connectiondns, connectionsucc

  datatype ConnectionStats = ConnectionStats(assoc: int, auth: int, dhcp: int, dns: int, success: int)

  /** The four connection stages that share one threshold ladder. */
  datatype Stage = Assoc | Auth | Dhcp | Dns

  function StageCount(stage: Stage, stats: ConnectionStats): int {
    match stage
    case Assoc => stats.assoc
    case Auth => stats.auth
    case Dhcp => stats.dhcp
    case Dns => stats.dns
  }

  function StageTitle(stage: Stage): string {
    match stage
    case Assoc => "Associations"
    case Auth => "Authentications"
    case Dhcp => "DHCP Requests"
    case Dns => "DNS Queries"
  }

  function StageKey(stage: Stage): string {
    match stage
    case Assoc => "conn_assoc"
    case Auth => "conn_auth"
    case Dhcp => "conn_dhcp"
    case Dns => "conn_dns"
  }

  function StageWarn(stage: Stage): int {
    if stage == Assoc then 5 else 10
  }

  function StageCrit(stage: Stage): int {
    if stage == Assoc then 10 else 20
  }

  function StagePerf(stage: Stage, count: int): PerfData {
    PerfData(StageKey(stage), IntToString(count), IntToString(StageWarn(stage)), IntToString(StageCrit(stage)), "", "")
  }

  /** OK below the warning threshold, WARNING at or above it; the CRITICAL
      test comes after a WARNING test that already caught its values. */
  function StageCheck(stage: Stage, f: Fetch<ConnectionStats>): (r: Option<Report>)
    ensures f.FetchFailed? ==> r == Some(Report(Unknown, ConnectFailure))
    ensures r.Some? && r.value.exitCode in {Ok, Warning, Unknown}
    ensures r.value.exitCode == Unknown <==> f.FetchFailed?
    ensures f.Fetched? ==> (r.value.exitCode == Ok <==> StageCount(stage, f.value) < StageWarn(stage))
    ensures f.Fetched? ==> EndsWith(r.value.output, RenderPerf(StagePerf(stage, StageCount(stage, f.value))))
  {
    match f
    case FetchFailed => Some(Report(Unknown, ConnectFailure))
    case Fetched(stats) =>
      var count := StageCount(stage, stats);
      var text := StageTitle(stage) + " in the past hour: " + IntToString(count);
      var perf := StagePerf(stage, count);
      if count < StageWarn(stage) then Some(Report(Ok, WithPerf(Tagged(Ok, text), perf)))
      else if count >= StageWarn(stage) then Some(Report(Warning, WithPerf(Tagged(Warning, text), perf)))
      else if count >= StageCrit(stage) then Some(Report(Critical, WithPerf(Tagged(Critical, text), perf)))
      else None
  }

  function SuccessPerf(count: int): PerfData {
    PerfData("conn_succ", IntToString(count), "", IntToString(0), "", "")
  }

  /** Successful connections: OK when positive, CRITICAL otherwise. */
  function SuccessCheck(f: Fetch<ConnectionStats>): (r: Option<Report>)
    ensures f.FetchFailed? ==> r == Some(Report(Unknown, ConnectFailure))
    ensures r.Some? && r.value.exitCode in {Ok, Critical, Unknown}
    ensures r.value.exitCode == Unknown <==> f.FetchFailed?
    ensures f.Fetched? ==> (r.value.exitCode == Ok <==> f.value.success > 0)
    ensures f.Fetched? ==> EndsWith(r.value.output, RenderPerf(SuccessPerf(f.value.success)))
  {
    match f
    case FetchFailed => Some(Report(Unknown, ConnectFailure))
    case Fetched(stats) =>
      var count := stats.success;
      var text := "Successful connections in the past hour: " + IntToString(count);
      if count > 0 then Some(Report(Ok, WithPerf(Tagged(Ok, text), SuccessPerf(count))))
      else Some(Report(Critical, WithPerf(Tagged(Critical, text), SuccessPerf(count))))
  }

  // ---------------------------------------------------------------------
  // failedconnections

  /** The two fields are concatenated with `+`, so they are strings. */
  datatype FailedConnection = FailedConnection(clientMac: string, failureStep: string)

  function FailureLine(e: FailedConnection): string {
    "Client " + e.clientMac + " failed to connect (step: " + e.failureStep + ")"
  }

  function FailureLines(events: seq<FailedConnection>): (lines: seq<string>)
    ensures |lines| == |events|
    ensures forall i :: 0 <= i < |events| ==> lines[i] == FailureLine(events[i])
  {
    seq(|events|, i requires 0 <= i < |events| => FailureLine(events[i]))
  }

  /** The loop that collects one line per failure, in input order. */
  method CollectFailureLines(events: seq<FailedConnection>) returns (lines: seq<string>)
    ensures |lines| == |events|
    ensures forall i :: 0 <= i < |events| ==> lines[i] == FailureLine(events[i])
  {
    lines := [];
    var i := 0;
    while i < |events|
      invariant 0 <= i <= |events|
      invariant |lines| == i
      invariant forall k :: 0 <= k < i ==> lines[k] == FailureLine(events[k])
    {
      lines := lines + [FailureLine(events[i])];
      i := i + 1;
    }
  }

  /** The thresholds printed in the token; the exit code ignores them. */
  const FailWarnShown := 15
  const FailCritShown := 25

  function FailuresPerf(count: nat): PerfData {
    PerfData("fail_conn", IntToString(count), IntToString(FailWarnShown), IntToString(FailCritShown), "", "")
  }

  function FailuresText(events: seq<FailedConnection>): string {
    "Number of failed connections in the past hour: " + IntToString(|events|) + "\n" + Join(FailureLines(events), "\n")
  }

  /** The ladder tests `len >= 0` first, which every length passes, so a
      fetched list always exits 0. */
  function FailedConnectionsCheck(f: Fetch<seq<FailedConnection>>): (r: Option<Report>)
    ensures f.FetchFailed? ==> r == Some(Report(Unknown, ConnectFailure))
    ensures r.Some? && r.value.exitCode in {Ok, Unknown}
    ensures r.value.exitCode == Unknown <==> f.FetchFailed?
    ensures f.Fetched? ==> r.value.output == WithPerf(FailuresText(f.value), FailuresPerf(|f.value|))
  {
    match f
    case FetchFailed => Some(Report(Unknown, ConnectFailure))
    case Fetched(events) =>
      var out := WithPerf(FailuresText(events), FailuresPerf(|events|));
      if |events| >= 0 then Some(Report(Ok, out))
      else if |events| >= 10 then Some(Report(Warning, out))
      else if |events| >= 20 then Some(Report(Critical, out))
      else None
  }

  // ---------------------------------------------------------------------
  // clients

  /** Every field goes through `str()`, so any scalar (a missing description
      is `null`) is accepted. */
  datatype Client = Client(description: Json, ip: Json, mac: Json)

  function ClientLine(c: Client): string {
    "Client: " + PyStr(c.description) + " (IP: " + PyStr(c.ip) + ", Mac Address: " + PyStr(c.mac) + ")"
  }

  function ClientLines(clients: seq<Client>): (lines: seq<string>)
    ensures |lines| == |clients|
    ensures forall i :: 0 <= i < |clients| ==> lines[i] == ClientLine(clients[i])
  {
    seq(|clients|, i requires 0 <= i < |clients| => ClientLine(clients[i]))
  }

  /** The loop that collects one line per connected client, in input order. */
  method CollectClientLines(clients: seq<Client>) returns (lines: seq<string>)
    ensures |lines| == |clients|
    ensures forall i :: 0 <= i < |clients| ==> lines[i] == ClientLine(clients[i])
  {
    lines := [];
    var i := 0;
    while i < |clients|
      invariant 0 <= i <= |clients|
      invariant |lines| == i
      invariant forall k :: 0 <= k < i ==> lines[k] == ClientLine(clients[k])
    {
      lines := lines + [ClientLine(clients[i])];
      i := i + 1;
    }
  }

  const ClientsOkAt := 5

  function ClientsPerf(count: nat): PerfData {
    PerfData("num_clients", IntToString(count), IntToString(10), IntToString(0), "", "")
  }

  function ClientsText(clients: seq<Client>): string {
    "Number of clients connected: " + IntToString(|clients|) + "\n" + Join(ClientLines(clients), "\n")
  }

  /** Five or more clients exit 0, fewer exit 1; the `== 0` test for
      CRITICAL follows a `< 5` test that already caught zero. */
  function ClientsCheck(f: Fetch<seq<Client>>): (r: Option<Report>)
    ensures f.FetchFailed? ==> r == Some(Report(Unknown, ConnectFailure))
    ensures r.Some? && r.value.exitCode in {Ok, Warning, Unknown}
    ensures r.value.exitCode == Unknown <==> f.FetchFailed?
    ensures f.Fetched? ==> (r.value.exitCode == Ok <==> |f.value| >= ClientsOkAt)
    ensures f.Fetched? ==> r.value.output == WithPerf(ClientsText(f.value), ClientsPerf(|f.value|))
  {
    match f
    case FetchFailed => Some(Report(Unknown, ConnectFailure))
    case Fetched(clients) =>
      var out := WithPerf(ClientsText(clients), ClientsPerf(|ClientLines(clients)|));
      if |clients| >= ClientsOkAt then Some(Report(Ok, out))
      else if |clients| < ClientsOkAt then Some(Report(Warning, out))
      else if |clients| == 0 then Some(Report(Critical, out))
      else None
  }
}

=== FILE: decimal.dfy ===
/** Decimal rendering of integers, as Python's `str(int)` produces it, and
    the parse a monitoring host applies to read the number back. */
module Decimal {
  import opened Wrappers

  predicate IsDigit(ch: char) {
    '0' <= ch <= '9'
  }

  predicate AllDigits(s: string) {
    forall i :: 0 <= i < |s| ==> IsDigit(s[i])
  }

  function DigitChar(d: nat): (ch: char)
    requires d < 10
    ensures IsDigit(ch)
  {
    (d + 48) as char
  }

  function DigitValue(ch: char): (d: nat)
    requires IsDigit(ch)
    ensures d < 10
  {
    ch as int - 48
  }

  /** The decimal digits of `n`, most significant first, without leading zeros. */
  function NatToString(n: nat): (s: string)
    ensures |s| > 0 && AllDigits(s)
    ensures s[0] == '0' ==> n == 0
    decreases n
  {
    if n < 10 then [DigitChar(n)]
    else NatToString(n / 10) + [DigitChar(n % 10)]
  }

  /** The value of a string of decimal digits. */
  function ParseNat(s: string): nat
    requires AllDigits(s)
    decreases |s|
  {
    if |s| == 0 then 0
    else 10 * ParseNat(s[..|s| - 1]) + DigitValue(s[|s| - 1])
  }

  lemma {:induction false} ParseNatToString(n: nat)
    ensures ParseNat(NatToString(n)) == n
    decreases n
  {
    if n >= 10 {
      var s := NatToString(n);
      assert s[..|s| - 1] == NatToString(n / 10);
      ParseNatToString(n / 10);
    }
  }

  /** Python's `str(i)` for an integer: an optional minus sign, then digits. */
  function IntToString(i: int): (s: string)
    ensures |s| > 0
    ensures forall k :: 0 <= k < |s| ==> IsDigit(s[k]) || (k == 0 && s[k] == '-')
  {
    if i < 0 then "-" + NatToString(-i) else NatToString(i)
  }

  /** Reads an optionally negated string of decimal digits. */
  function ParseInt(s: string): Option<int> {
    if 2 <= |s| && s[0] == '-' && AllDigits(s[1..]) then Some(-(ParseNat(s[1..]) as int))
    else if 1 <= |s| && AllDigits(s) then Some(ParseNat(s))
    else None
  }

  /** Every integer the model prints can be read back exactly. */
  lemma IntToStringRoundTrip(i: int)
    ensures ParseInt(IntToString(i)) == Some(i)
  {
    if i < 0 {
      var s := IntToString(i);
      assert s[1..] == NatToString(-i);
      ParseNatToString(-i);
    } else {
      ParseNatToString(i);
    }
  }

  /** The characters that delimit plugin output never occur in a rendered integer. */
  lemma IntToStringAvoids(i: int, c: char)
    requires !IsDigit(c) && c != '-'
    ensures c !in IntToString(i)
  {
  }
}

=== FILE: dispatch.dfy ===
/** The script's top level: which check a `--device`/`--type` pair runs,
    fed from the dashboard's answers to that check's request. */
module Dispatch {
  import opened Wrappers
  import opened PyJson
  import opened Plugin
  import opened Checks
  import opened CheckProperties

  /** The `--device` choices. */
  datatype Device = Switch | Ap

  /** The `--type` choices. */
  datatype CheckType =
    | License | Uplink | Port | Poe | Latency | Ssid | FailConn
    | ConnAssoc | ConnAuth | ConnDhcp | ConnDns | ConnSucc | Clients

  /** The outcome of every request a check may make. Port and PoE read the
      same switch-port record; the five connection checks read the same
      connection statistics. */
  datatype Dashboard = Dashboard(
    license: Fetch<LicenseState>,
    uplink: Fetch<UplinkState>,
    switchPort: Fetch<SwitchPort>,
    ssid: Fetch<SsidSettings>,
    latency: Fetch<real>,
    connectionStats: Fetch<ConnectionStats>,
    failedConnections: Fetch<seq<FailedConnection>>,
    clients: Fetch<seq<Client>>)

  /** Device capabilities as the usage text lists them: every device has a
      license and an uplink, a switch has ports, an access point has the
      wireless statistics. */
  predicate ForAllDevices(t: CheckType) {
    t == License || t == Uplink
  }

  predicate SwitchOnly(t: CheckType) {
    t == Port || t == Poe
  }

  predicate Supported(device: Device, t: CheckType) {
    ForAllDevices(t) || (device == Switch) == SwitchOnly(t)
  }

  /** Whether the request `t` reads failed. */
  predicate FetchFailedFor(t: CheckType, d: Dashboard) {
    match t
    case License => d.license.FetchFailed?
    case Uplink => d.uplink.FetchFailed?
    case Port => d.switchPort.FetchFailed?
    case Poe => d.switchPort.FetchFailed?
    case Ssid => d.ssid.FetchFailed?
    case Latency => d.latency.FetchFailed?
    case FailConn => d.failedConnections.FetchFailed?
    case Clients => d.clients.FetchFailed?
    case _ => d.connectionStats.FetchFailed?
  }

  /** The exit codes each check can produce. */
  predicate CanExit(t: CheckType, code: int) {
    match t
    case License => code == Ok || code == Warning || code == Critical
    case Ssid => code == Ok || code == Warning || code == Critical || code == Unknown
    case Uplink | Port | Poe | ConnSucc => code == Ok || code == Critical || code == Unknown
    case FailConn => code == Ok || code == Unknown
    case _ => code == Ok || code == Warning || code == Unknown
  }

  /** The branch for `--device switch`. */
  function SwitchChain(t: CheckType, d: Dashboard): (r: Option<Report>)
    ensures r.Some? ==> Supported(Switch, t) && CanExit(t, r.value.exitCode)
    ensures Supported(Switch, t) && FetchFailedFor(t, d) ==>
              r == Some(Report(if t == License then Critical else Unknown, ConnectFailure))
  {
    match t
    case License => LicenseCheck(d.license)
    case Uplink => UplinkCheck(d.uplink)
    case Port => PortCheck(d.switchPort)
    case Poe => PoeCheck(d.switchPort)
    case _ => None
  }

  /** The branch for `--device ap`. */
  function ApChain(t: CheckType, d: Dashboard, render: real -> string): (r: Option<Report>)
    ensures r.Some? ==> CanExit(t, r.value.exitCode)
  {
    match t
    case License => LicenseCheck(d.license)
    case Uplink => UplinkCheck(d.uplink)
    case Ssid => SsidCheck(d.ssid)
    case Latency => LatencyCheck(d.latency, render)
    case ConnAssoc => StageCheck(Assoc, d.connectionStats)
    case ConnAuth => StageCheck(Auth, d.connectionStats)
    case ConnDhcp => StageCheck(Dhcp, d.connectionStats)
    case ConnDns => StageCheck(Dns, d.connectionStats)
    case ConnSucc => SuccessCheck(d.connectionStats)
    case Clients => ClientsCheck(d.clients)
    case FailConn => FailedConnectionsCheck(d.failedConnections)
    case _ => None
  }

  /** The if/elif chain at the bottom of the script; a type a device does
      not support falls through every branch and the script ends silently. */
  function Run(device: Device, t: CheckType, d: Dashboard, render: real -> string): (r: Option<Report>)
    ensures r.Some? ==> Supported(device, t)
    ensures r.Some? ==> CanExit(t, r.value.exitCode)
    ensures Supported(device, t) && FetchFailedFor(t, d) ==>
              r == Some(Report(if t == License then Critical else Unknown, ConnectFailure))
  {
    match device
    case Switch => SwitchChain(t, d)
    case Ap => ApChain(t, d, render)
  }

  /** The performance-data key each type prints, as a table of its own. */
  function PerfKey(t: CheckType): Option<string> {
    match t
    case Latency => Some("latency_stat")
    case ConnAssoc => Some("conn_assoc")
    case ConnAuth => Some("conn_auth")
    case ConnDhcp => Some("conn_dhcp")
    case ConnDns => Some("conn_dns")
    case ConnSucc => Some("conn_succ")
    case FailConn => Some("fail_conn")
    case Clients => Some("num_clients")
    case _ => None
  }

  /** The answer to the request of `t` prints nothing the host would take
      for a delimiter: no ';' or '|' in the rendered latency, no '|' in a
      failure's or a client's printed fields. */
  predicate Printable(t: CheckType, d: Dashboard, render: real -> string) {
    match t
    case Latency => d.latency.Fetched? ==> ';' !in render(d.latency.value) && '|' !in render(d.latency.value)
    case FailConn =>
      d.failedConnections.Fetched? ==>
        forall e | e in d.failedConnections.value :: '|' !in e.clientMac && '|' !in e.failureStep
    case Clients =>
      d.clients.Fetched? ==>
        forall c | c in d.clients.value :: '|' !in PyStr(c.description) && '|' !in PyStr(c.ip) && '|' !in PyStr(c.mac)
    case _ => true
  }

  /** The AP branch, which runs every type that prints performance data,
      prints each type's own key. */
  lemma ApChainPrintsItsKey(t: CheckType, d: Dashboard, render: real -> string)
    requires !FetchFailedFor(t, d) && PerfKey(t).Some?
    requires Printable(t, d, render)
    ensures ApChain(t, d, render).Some?
    ensures var parsed := ParseOutput(ApChain(t, d, render).value.output);
            parsed.Some? && parsed.value.1.key == PerfKey(t).value
  {
    match t {
      case Latency =>
        LatencyPerfReadBack(d.latency.value, render);
      case ConnAssoc =>
        StagePerfReadBack(Assoc, d.connectionStats.value);
      case ConnAuth =>
        StagePerfReadBack(Auth, d.connectionStats.value);
      case ConnDhcp =>
        StagePerfReadBack(Dhcp, d.connectionStats.value);
      case ConnDns =>
        StagePerfReadBack(Dns, d.connectionStats.value);
      case ConnSucc =>
        SuccessPerfReadBack(d.connectionStats.value);
      case FailConn =>
        var events := d.failedConnections.value;
        assert forall i :: 0 <= i < |events| ==> events[i] in events;
        FailuresTokenReadBack(events);
      case Clients =>
        var clients := d.clients.value;
        assert forall i :: 0 <= i < |clients| ==> clients[i] in clients;
        ClientsTokenReadBack(clients);
    }
  }

  /** Each type that prints performance data runs the check that prints
      its own key: a host reading the output of a fetched, supported
      check finds the key the table gives for the requested type. */
  lemma RunPrintsItsKey(device: Device, t: CheckType, d: Dashboard, render: real -> string)
    requires Supported(device, t) && !FetchFailedFor(t, d) && PerfKey(t).Some?
    requires Printable(t, d, render)
    ensures Run(device, t, d, render).Some?
    ensures var parsed := ParseOutput(Run(device, t, d, render).value.output);
            parsed.Some? && parsed.value.1.key == PerfKey(t).value
  {
    RunIsCheck(device, t, d, render);
    ApChainPrintsItsKey(t, d, render);
  }

  /** The cases where a supported check prints nothing: a switch-port flag
      that is neither string, or an SSID enabled flag whose `str()` is
      neither "True" nor "False" on a configured SSID. */
  predicate Silent(t: CheckType, d: Dashboard) {
    match t
    case Port => d.switchPort.Fetched? && d.switchPort.value.enabled !in {JStr("True"), JStr("False")}
    case Poe => d.switchPort.Fetched? && d.switchPort.value.poeEnabled !in {JStr("True"), JStr("False")}
    case Ssid =>
      && d.ssid.Fetched?
      && !MatchesUnconfigured(d.ssid.value.name)
      && PyStr(d.ssid.value.enabled) !in {"True", "False"}
    case _ => false
  }

  /** Output happens exactly for supported pairs that are not silent. */
  lemma RunReportsUnlessSilent(device: Device, t: CheckType, d: Dashboard, render: real -> string)
    ensures Run(device, t, d, render).Some? <==> Supported(device, t) && !Silent(t, d)
  {
  }

  /** A dashboard that drives every check to the given exit code where the
      check can produce it: a failed request for 3, and for 0, 1 and 2 one
      answer per request. */
  function Probe(code: int): Dashboard {
    Dashboard(
      Answer(code, LicenseState(JStr("OK"), JStr("2030-01-01")), LicenseState(JStr("Expired"), JNull), FetchFailed),
      Answer(code, UplinkState(JStr("Active"), JStr("192.0.2.1")), UplinkState(JStr("Failed"), JNull),
             Fetched(UplinkState(JStr("Failed"), JNull))),
      Answer(code, SwitchPort(JStr("True"), JStr("True")), SwitchPort(JNull, JNull),
             Fetched(SwitchPort(JStr("False"), JStr("False")))),
      Answer(code, SsidSettings("Office", JBool(true)), SsidSettings("Unconfigured SSID 2", JBool(true)),
             Fetched(SsidSettings("Office", JBool(false)))),
      Answer(code, 0.0, 600.0, FetchFailed),
      Answer(code, ConnectionStats(0, 0, 0, 0, 1), ConnectionStats(50, 50, 50, 50, 0),
             Fetched(ConnectionStats(0, 0, 0, 0, 0))),
      Answer(code, [], [], FetchFailed),
      Answer(code, seq(5, _ => Client(JNull, JNull, JNull)), [], FetchFailed))
  }

  /** The request outcome `Probe` uses for one request. */
  function Answer<T>(code: int, ok: T, warning: T, critical: Fetch<T>): Fetch<T> {
    if code == Unknown then FetchFailed
    else if code == Ok then Fetched(ok)
    else if code == Warning then Fetched(warning)
    else critical
  }

  /** The check a supported pair runs, whichever device runs it. */
  lemma RunIsCheck(device: Device, t: CheckType, d: Dashboard, render: real -> string)
    requires Supported(device, t)
    ensures Run(device, t, d, render) == ApChain(t, d, render) || t in {Port, Poe}
    ensures t == Port ==> Run(device, t, d, render) == PortCheck(d.switchPort)
    ensures t == Poe ==> Run(device, t, d, render) == PoeCheck(d.switchPort)
  {
  }

  lemma SsidReaches(code: int)
    requires CanExit(Ssid, code)
    ensures var r := SsidCheck(Probe(code).ssid); r.Some? && r.value.exitCode == code
  {
    assert !MatchesUnconfigured("Office");
    assert MatchesUnconfigured("Unconfigured SSID 2") by {
      assert "Unconfigured SSID 2"[..|UnconfiguredStem|] == UnconfiguredStem;
    }
  }

  lemma StageReaches(stage: Stage, code: int)
    requires CanExit(ConnAssoc, code)
    ensures var r := StageCheck(stage, Probe(code).connectionStats); r.Some? && r.value.exitCode == code
  {
  }

  lemma ClientsReach(code: int)
    requires CanExit(Clients, code)
    ensures var r := ClientsCheck(Probe(code).clients); r.Some? && r.value.exitCode == code
  {
  }

  /** `Probe(code)` makes every supported check that can exit with `code` do so. */
  lemma ProbeReaches(device: Device, t: CheckType, code: int, render: real -> string)
    requires Supported(device, t) && CanExit(t, code)
    ensures var r := Run(device, t, Probe(code), render); r.Some? && r.value.exitCode == code
  {
    var d := Probe(code);
    RunIsCheck(device, t, d, render);
    match t {
      case Ssid => SsidReaches(code);
      case ConnAssoc => StageReaches(Assoc, code);
      case ConnAuth => StageReaches(Auth, code);
      case ConnDhcp => StageReaches(Dhcp, code);
      case ConnDns => StageReaches(Dns, code);
      case Clients => ClientsReach(code);
      case _ =>
    }
  }

  /** Every code a check can exit with is produced by some dashboard, so
      `CanExit` is exact: latency, the four stage counts and the client
      count never exit 2, failed connections exit only 0 or 3, and a license
      check never exits 3. */
  lemma PossibleCodesAreReached(device: Device, t: CheckType, code: int, render: real -> string)
    requires Supported(device, t) && CanExit(t, code)
    ensures exists d :: Run(device, t, d, render).Some? && Run(device, t, d, render).value.exitCode == code
  {
    ProbeReaches(device, t, code, render);
    var d := Probe(code);
    assert Run(device, t, d, render).Some? && Run(device, t, d, render).value.exitCode == code;
  }
}

=== FILE: plugin.dfy ===
/** The plugin output convention of the Nagios Plugin Development
    Guidelines (section "Performance data"): a text part, then " | ", then a
    performance-data token `key=value;warn;crit;min;max` whose five
    semicolon-separated fields are positional and may be empty. */
module Plugin {
  import opened Wrappers
  import opened Text

  datatype PerfData = PerfData(key: string, value: string, warn: string, crit: string, min: string, max: string)

  function Fields(p: PerfData): seq<string> {
    [p.value, p.warn, p.crit, p.min, p.max]
  }

  /** A token the host can read back: the key holds no '=', no field holds
      a ';', and no part holds the '|' that separates text from data. */
  predicate WellFormed(p: PerfData) {
    && '=' !in p.key && '|' !in p.key
    && forall i :: 0 <= i < 5 ==> ';' !in Fields(p)[i] && '|' !in Fields(p)[i]
  }

  function RenderPerf(p: PerfData): string {
    p.key + "=" + Join(Fields(p), ";")
  }

  /** The full output line(s): text, separator, token. */
  function WithPerf(text: string, p: PerfData): string {
    text + " | " + RenderPerf(p)
  }

  /** How the host reads a token: the key runs to the first '=', the
      rest must split on ';' into exactly five fields. */
  function ParsePerf(token: string): Option<PerfData> {
    match FirstIndex(token, '=')
    case None => None
    case Some(i) =>
      var fields := Split(token[i + 1..], ';');
      if |fields| == 5 then Some(PerfData(token[..i], fields[0], fields[1], fields[2], fields[3], fields[4]))
      else None
  }

  /** How the host separates output: at the first '|', which must be
      surrounded by single spaces, into the text and the parsed token.
      Everything after that '|' is performance data, so a '|' inside the
      text ends the text early. */
  function ParseOutput(out: string): Option<(string, PerfData)> {
    match FirstIndex(out, '|')
    case None => None
    case Some(i) =>
      if 1 <= i && out[i - 1] == ' ' && i + 1 < |out| && out[i + 1] == ' ' then
        match ParsePerf(out[i + 2..])
        case None => None
        case Some(p) => Some((out[..i - 1], p))
      else None
  }

  /** Parsing a rendered token gives back every field. */
  lemma PerfRoundTrip(p: PerfData)
    requires WellFormed(p)
    ensures ParsePerf(RenderPerf(p)) == Some(p)
  {
    var token := RenderPerf(p);
    var n := |p.key|;
    FirstIndexAt(token, '=', n);
    assert token[..n] == p.key;
    assert token[n + 1..] == Join(Fields(p), [';']);
    SplitJoin(Fields(p), ';');
  }

  /** Parsing a full output gives back its text and its token, provided
      the text holds no '|'. */
  lemma OutputRoundTrip(text: string, p: PerfData)
    requires '|' !in text
    requires WellFormed(p)
    ensures ParseOutput(WithPerf(text, p)) == Some((text, p))
  {
    var out := WithPerf(text, p);
    var i := |text| + 1;
    assert out[..i] == text + " ";
    FirstIndexAt(out, '|', i);
    assert out[i + 2..] == RenderPerf(p);
    assert out[..i - 1] == text;
    PerfRoundTrip(p);
  }

  /** A '|' in the text is taken for the separator: the host never reads
      back the text that was printed. */
  lemma BarInTextMisreads(text: string, p: PerfData)
    requires '|' in text
    ensures ParseOutput(WithPerf(text, p)) != Some((text, p))
  {
    var out := WithPerf(text, p);
    assert out[..|text|] == text;
    var j :| 0 <= j < |text| && text[j] == '|';
    assert out[j] == '|';
  }

  /** A header line followed by newline-joined detail lines splits back
      into the header and exactly those lines; with no details the text
      still ends in the newline, which leaves one empty line. */
  lemma DetailLines(header: string, lines: seq<string>)
    requires '\n' !in header
    requires forall i :: 0 <= i < |lines| ==> '\n' !in lines[i]
    ensures Split(header + "\n" + Join(lines, "\n"), '\n') == [header] + (if |lines| == 0 then [""] else lines)
  {
    var parts := [header] + (if |lines| == 0 then [""] else lines);
    if |lines| == 0 {
      assert Join(parts, "\n") == header + "\n" + "";
    } else {
      JoinCons(header, lines, "\n");
    }
    assert header + "\n" + Join(lines, "\n") == Join(parts, "\n");
    SplitJoin(parts, '\n');
  }
}

=== FILE: properties.dfy ===
/** Properties of the checks: which exit codes each can reach, where the
    source's OK-first threshold ladders part from the most-severe-first
    policy a plugin normally applies, and what a monitoring host reads back
    from each output. */
module CheckProperties {
  import opened Wrappers
  import opened Decimal
  import opened Text
  import opened PyJson
  import opened Plugin
  import opened Checks

  /** The usual plugin policy, checked from the most severe tier down:
      CRITICAL at or above `crit`, else WARNING at or above `warn`, else OK. */
  function CanonicalTier(v: real, warn: real, crit: real): int {
    if v >= crit then Critical
    else if v >= warn then Warning
    else Ok
  }

  // ---------------------------------------------------------------------
  // Threshold ladders against the canonical policy

  /** A connection-stage check agrees with the canonical policy except
      that every CRITICAL value is reported as WARNING. */
  lemma StageVersusCanonical(stage: Stage, stats: ConnectionStats)
    ensures var tier := CanonicalTier(StageCount(stage, stats) as real, StageWarn(stage) as real, StageCrit(stage) as real);
            var code := StageCheck(stage, Fetched(stats)).value.exitCode;
            && code == (if tier == Critical then Warning else tier)
            && (code == tier <==> StageCount(stage, stats) < StageCrit(stage))
  {
  }

  /** Latency agrees with the canonical policy except at exactly 128 ms,
      which the source calls OK, and from 512 ms up, which it calls WARNING. */
  lemma LatencyVersusCanonical(avg: real, render: real -> string)
    ensures var tier := CanonicalTier(avg, LatencyWarn as real, LatencyCrit as real);
            var code := LatencyCheck(Fetched(avg), render).value.exitCode;
            && (avg == LatencyWarn as real ==> code == Ok && tier == Warning)
            && (avg >= LatencyCrit as real ==> code == Warning && tier == Critical)
            && (code == tier <==> avg != LatencyWarn as real && avg < LatencyCrit as real)
  {
  }

  /** The boundaries differ by check: 128 ms is OK, while exactly 5
      associations or 10 authentications, DHCP requests or DNS queries is
      a WARNING, and one less is OK. */
  lemma ThresholdBoundaries(stage: Stage, stats: ConnectionStats, render: real -> string)
    ensures LatencyCheck(Fetched(LatencyWarn as real), render).value.exitCode == Ok
    ensures StageCount(stage, stats) == StageWarn(stage) ==> StageCheck(stage, Fetched(stats)).value.exitCode == Warning
    ensures StageCount(stage, stats) == StageWarn(stage) - 1 ==> StageCheck(stage, Fetched(stats)).value.exitCode == Ok
    ensures StageWarn(Assoc) == 5 && StageWarn(Auth) == 10 && StageWarn(Dhcp) == 10 && StageWarn(Dns) == 10
    ensures StageCrit(Assoc) == 10 && StageCrit(Auth) == 20 && StageCrit(Dhcp) == 20 && StageCrit(Dns) == 20
  {
  }

  // ---------------------------------------------------------------------
  // The status word leads the output

  lemma TaggedLeads(code: int, text: string, p: PerfData)
    ensures StartsWith(WithPerf(Tagged(code, text), p), StatusLabel(code) + ": ")
  {
    assert WithPerf(Tagged(code, text), p) == (StatusLabel(code) + ": ") + (text + " | " + RenderPerf(p));
    StartsWithPrepended(StatusLabel(code) + ": ", text + " | " + RenderPerf(p));
  }

  /** For every check whose output carries a status word, the word agrees
      with the exit code. */
  lemma StatusWordMatchesExitCode(stage: Stage, stats: ConnectionStats, avg: real, render: real -> string)
    ensures var r := StageCheck(stage, Fetched(stats)).value;
            StartsWith(r.output, StatusLabel(r.exitCode) + ": ")
    ensures var r := SuccessCheck(Fetched(stats)).value;
            StartsWith(r.output, StatusLabel(r.exitCode) + ": ")
    ensures var r := LatencyCheck(Fetched(avg), render).value;
            StartsWith(r.output, StatusLabel(r.exitCode) + ": ")
  {
    var count := StageCount(stage, stats);
    TaggedLeads(StageCheck(stage, Fetched(stats)).value.exitCode,
                StageTitle(stage) + " in the past hour: " + IntToString(count), StagePerf(stage, count));
    TaggedLeads(SuccessCheck(Fetched(stats)).value.exitCode,
                "Successful connections in the past hour: " + IntToString(stats.success), SuccessPerf(stats.success));
    TaggedLeads(LatencyCheck(Fetched(avg), render).value.exitCode,
                "Average latency for AP is: " + render(avg) + "ms", LatencyPerf(render(avg)));
  }

  /** Each stage's output names its own counter: the text is the status
      word, the counter's title as each connection-stage function prints
      it, and the count. */
  lemma StageHeadlines(stats: ConnectionStats)
    ensures var r := StageCheck(Assoc, Fetched(stats)).value;
            r.output == WithPerf(Tagged(r.exitCode, "Associations" + " in the past hour: " + IntToString(stats.assoc)), StagePerf(Assoc, stats.assoc))
    ensures var r := StageCheck(Auth, Fetched(stats)).value;
            r.output == WithPerf(Tagged(r.exitCode, "Authentications" + " in the past hour: " + IntToString(stats.auth)), StagePerf(Auth, stats.auth))
    ensures var r := StageCheck(Dhcp, Fetched(stats)).value;
            r.output == WithPerf(Tagged(r.exitCode, "DHCP Requests" + " in the past hour: " + IntToString(stats.dhcp)), StagePerf(Dhcp, stats.dhcp))
    ensures var r := StageCheck(Dns, Fetched(stats)).value;
            r.output == WithPerf(Tagged(r.exitCode, "DNS Queries" + " in the past hour: " + IntToString(stats.dns)), StagePerf(Dns, stats.dns))
  {
  }

  // ---------------------------------------------------------------------
  // What the host reads back from the performance data

  lemma NumberFieldsWellFormed(key: string, value: string, warn: int, crit: int)
    requires '=' !in key && '|' !in key && ';' !in value && '|' !in value
    ensures WellFormed(PerfData(key, value, IntToString(warn), IntToString(crit), "", ""))
  {
    IntToStringAvoids(warn, ';');
    IntToStringAvoids(warn, '|');
    IntToStringAvoids(crit, ';');
    IntToStringAvoids(crit, '|');
  }

  /** The characters the host splits output on: '|' before the
      performance data, the newline between detail lines. */
  predicate Delimiter(c: char) {
    c == '|' || c == '\n'
  }

  /** The fixed parts of every output hold no delimiter. */
  lemma TaggedAvoids(code: int, text: string, c: char)
    requires Delimiter(c) && c !in text
    ensures c !in Tagged(code, text)
  {
  }

  lemma StageTextAvoids(stage: Stage, count: int, c: char)
    requires Delimiter(c)
    ensures c !in StageTitle(stage) + " in the past hour: " + IntToString(count)
  {
    assert c !in StageTitle(stage) by {
      match stage
      case Assoc =>
      case Auth =>
      case Dhcp =>
      case Dns =>
    }
    assert c !in " in the past hour: ";
    IntToStringAvoids(count, c);
  }

  lemma SuccessTextAvoids(count: int, c: char)
    requires Delimiter(c)
    ensures c !in "Successful connections in the past hour: " + IntToString(count)
  {
    IntToStringAvoids(count, c);
  }

  lemma LatencyTextAvoids(shown: string, c: char)
    requires Delimiter(c) && c !in shown
    ensures c !in "Average latency for AP is: " + shown + "ms"
  {
  }

  /** The token of a connection-stage check carries the stage's key, the
      count and the two thresholds the ladder compares against. */
  lemma StagePerfReadBack(stage: Stage, stats: ConnectionStats)
    ensures var parsed := ParseOutput(StageCheck(stage, Fetched(stats)).value.output);
            && parsed.Some?
            && parsed.value.1.key == StageKey(stage)
            && ParseInt(parsed.value.1.value) == Some(StageCount(stage, stats))
            && ParseInt(parsed.value.1.warn) == Some(StageWarn(stage))
            && ParseInt(parsed.value.1.crit) == Some(StageCrit(stage))
            && parsed.value.1.min == "" && parsed.value.1.max == ""
  {
    var count := StageCount(stage, stats);
    var p := StagePerf(stage, count);
    IntToStringAvoids(count, ';');
    IntToStringAvoids(count, '|');
    NumberFieldsWellFormed(StageKey(stage), IntToString(count), StageWarn(stage), StageCrit(stage));
    var code := StageCheck(stage, Fetched(stats)).value.exitCode;
    var text := StageTitle(stage) + " in the past hour: " + IntToString(count);
    StageTextAvoids(stage, count, '|');
    TaggedAvoids(code, text, '|');
    OutputRoundTrip(Tagged(code, text), p);
    IntToStringRoundTrip(count);
    IntToStringRoundTrip(StageWarn(stage));
    IntToStringRoundTrip(StageCrit(stage));
  }

  /** The latency token carries the rendered average and 128/512, provided
      the rendering holds no delimiter of the output or the token. */
  lemma LatencyPerfReadBack(avg: real, render: real -> string)
    requires ';' !in render(avg) && '|' !in render(avg)
    ensures var parsed := ParseOutput(LatencyCheck(Fetched(avg), render).value.output);
            && parsed.Some?
            && parsed.value.1 == PerfData("latency_stat", render(avg), parsed.value.1.warn, parsed.value.1.crit, "", "")
            && ParseInt(parsed.value.1.warn) == Some(LatencyWarn)
            && ParseInt(parsed.value.1.crit) == Some(LatencyCrit)
  {
    NumberFieldsWellFormed("latency_stat", render(avg), LatencyWarn, LatencyCrit);
    var code := LatencyCheck(Fetched(avg), render).value.exitCode;
    var text := "Average latency for AP is: " + render(avg) + "ms";
    LatencyTextAvoids(render(avg), '|');
    TaggedAvoids(code, text, '|');
    OutputRoundTrip(Tagged(code, text), LatencyPerf(render(avg)));
    IntToStringRoundTrip(LatencyWarn);
    IntToStringRoundTrip(LatencyCrit);
  }

  /** The success token is `conn_succ=<count>;;0;;`. */
  lemma SuccessPerfReadBack(stats: ConnectionStats)
    ensures var parsed := ParseOutput(SuccessCheck(Fetched(stats)).value.output);
            && parsed.Some?
            && parsed.value.1.key == "conn_succ"
            && ParseInt(parsed.value.1.value) == Some(stats.success)
            && parsed.value.1.warn == ""
            && ParseInt(parsed.value.1.crit) == Some(0)
            && parsed.value.1.min == "" && parsed.value.1.max == ""
  {
    var count := stats.success;
    IntToStringAvoids(count, ';');
    IntToStringAvoids(count, '|');
    IntToStringAvoids(0, ';');
    IntToStringAvoids(0, '|');
    assert WellFormed(SuccessPerf(count));
    var code := SuccessCheck(Fetched(stats)).value.exitCode;
    var text := "Successful connections in the past hour: " + IntToString(count);
    SuccessTextAvoids(count, '|');
    TaggedAvoids(code, text, '|');
    OutputRoundTrip(Tagged(code, text), SuccessPerf(count));
    IntToStringRoundTrip(count);
    IntToStringRoundTrip(0);
  }

  // ---------------------------------------------------------------------
  // Failed connections and clients: count, detail lines, token

  lemma FailureLineAvoids(e: FailedConnection, c: char)
    requires Delimiter(c) && c !in e.clientMac && c !in e.failureStep
    ensures c !in FailureLine(e)
  {
  }

  lemma ClientLineAvoids(cl: Client, c: char)
    requires Delimiter(c) && c !in PyStr(cl.description) && c !in PyStr(cl.ip) && c !in PyStr(cl.mac)
    ensures c !in ClientLine(cl)
  {
  }

  lemma FailuresHeaderAvoids(n: int, c: char)
    requires Delimiter(c)
    ensures c !in "Number of failed connections in the past hour: " + IntToString(n)
  {
    var lead := "Number of failed connections";
    var rest := " in the past hour: ";
    assert c !in lead && c !in rest;
    assert "Number of failed connections in the past hour: " == lead + rest;
    IntToStringAvoids(n, c);
  }

  lemma ClientsHeaderAvoids(n: int, c: char)
    requires Delimiter(c)
    ensures c !in "Number of clients connected: " + IntToString(n)
  {
    IntToStringAvoids(n, c);
  }

  /** What the host reads from a header, detail lines and a numeric token:
      the header and lines, split on newlines, and every number. */
  lemma DetailedReadBack(header: string, lines: seq<string>, key: string, n: int, warn: int, crit: int)
    requires '\n' !in header && '|' !in header && '=' !in key && '|' !in key
    requires forall i :: 0 <= i < |lines| ==> '\n' !in lines[i] && '|' !in lines[i]
    ensures var parsed := ParseOutput(WithPerf(header + "\n" + Join(lines, "\n"),
                                               PerfData(key, IntToString(n), IntToString(warn), IntToString(crit), "", "")));
            && parsed.Some?
            && Split(parsed.value.0, '\n') == [header] + (if |lines| == 0 then [""] else lines)
            && parsed.value.1.key == key
            && ParseInt(parsed.value.1.value) == Some(n)
            && ParseInt(parsed.value.1.warn) == Some(warn)
            && ParseInt(parsed.value.1.crit) == Some(crit)
            && parsed.value.1.min == "" && parsed.value.1.max == ""
  {
    IntToStringAvoids(n, ';');
    IntToStringAvoids(n, '|');
    NumberFieldsWellFormed(key, IntToString(n), warn, crit);
    JoinAvoids(lines, "\n", '|');
    OutputRoundTrip(header + "\n" + Join(lines, "\n"), PerfData(key, IntToString(n), IntToString(warn), IntToString(crit), "", ""));
    DetailLines(header, lines);
    IntToStringRoundTrip(n);
    IntToStringRoundTrip(warn);
    IntToStringRoundTrip(crit);
  }

  /** The token the host reads after a text free of '|': the key and
      every number. Newlines in the text do not matter. */
  lemma NumericTokenReadBack(text: string, key: string, n: int, warn: int, crit: int)
    requires '|' !in text && '=' !in key && '|' !in key
    ensures var parsed := ParseOutput(WithPerf(text, PerfData(key, IntToString(n), IntToString(warn), IntToString(crit), "", "")));
            && parsed.Some?
            && parsed.value.0 == text
            && parsed.value.1.key == key
            && ParseInt(parsed.value.1.value) == Some(n)
            && ParseInt(parsed.value.1.warn) == Some(warn)
            && ParseInt(parsed.value.1.crit) == Some(crit)
  {
    IntToStringAvoids(n, ';');
    IntToStringAvoids(n, '|');
    NumberFieldsWellFormed(key, IntToString(n), warn, crit);
    OutputRoundTrip(text, PerfData(key, IntToString(n), IntToString(warn), IntToString(crit), "", ""));
    IntToStringRoundTrip(n);
    IntToStringRoundTrip(warn);
    IntToStringRoundTrip(crit);
  }

  /** The `fail_conn` token reads back whenever no MAC or step holds a '|',
      whatever newlines they hold. */
  lemma FailuresTokenReadBack(events: seq<FailedConnection>)
    requires forall i :: 0 <= i < |events| ==> '|' !in events[i].clientMac && '|' !in events[i].failureStep
    ensures var parsed := ParseOutput(FailedConnectionsCheck(Fetched(events)).value.output);
            && parsed.Some?
            && parsed.value.1.key == "fail_conn"
            && ParseInt(parsed.value.1.value) == Some(|events|)
            && ParseInt(parsed.value.1.warn) == Some(FailWarnShown)
            && ParseInt(parsed.value.1.crit) == Some(FailCritShown)
  {
    var lines := FailureLines(events);
    forall i | 0 <= i < |lines|
      ensures '|' !in lines[i]
    {
      FailureLineAvoids(events[i], '|');
    }
    JoinAvoids(lines, "\n", '|');
    FailuresHeaderAvoids(|events|, '|');
    NumericTokenReadBack(FailuresText(events), "fail_conn", |events|, FailWarnShown, FailCritShown);
  }

  /** The `num_clients` token reads back whenever no printed field of a
      client holds a '|', whatever newlines they hold. */
  lemma ClientsTokenReadBack(clients: seq<Client>)
    requires forall i :: 0 <= i < |clients| ==>
               '|' !in PyStr(clients[i].description) && '|' !in PyStr(clients[i].ip) && '|' !in PyStr(clients[i].mac)
    ensures var parsed := ParseOutput(ClientsCheck(Fetched(clients)).value.output);
            && parsed.Some?
            && parsed.value.1.key == "num_clients"
            && ParseInt(parsed.value.1.value) == Some(|clients|)
            && ParseInt(parsed.value.1.warn) == Some(10)
            && ParseInt(parsed.value.1.crit) == Some(0)
  {
    var lines := ClientLines(clients);
    forall i | 0 <= i < |lines|
      ensures '|' !in lines[i]
    {
      ClientLineAvoids(clients[i], '|');
    }
    JoinAvoids(lines, "\n", '|');
    ClientsHeaderAvoids(|clients|, '|');
    NumericTokenReadBack(ClientsText(clients), "num_clients", |clients|, 10, 0);
  }

  /** The failures output is the header with the count, one line per
      failure in input order, and `fail_conn=<count>;15;25;;`, whose
      thresholds are not the ones the (dead) ladder tests. A MAC or step
      holding a newline or '|' breaks this (see `BarInTextMisreads`). */
  lemma FailuresReadBack(events: seq<FailedConnection>)
    requires forall i :: 0 <= i < |events| ==>
               && '\n' !in events[i].clientMac && '\n' !in events[i].failureStep
               && '|' !in events[i].clientMac && '|' !in events[i].failureStep
    ensures var parsed := ParseOutput(FailedConnectionsCheck(Fetched(events)).value.output);
            && parsed.Some?
            && Split(parsed.value.0, '\n') ==
               ["Number of failed connections in the past hour: " + IntToString(|events|)]
               + (if |events| == 0 then [""] else FailureLines(events))
            && parsed.value.1.key == "fail_conn"
            && ParseInt(parsed.value.1.value) == Some(|events|)
            && ParseInt(parsed.value.1.warn) == Some(FailWarnShown)
            && ParseInt(parsed.value.1.crit) == Some(FailCritShown)
            && parsed.value.1.min == "" && parsed.value.1.max == ""
  {
    var lines := FailureLines(events);
    forall i | 0 <= i < |lines|
      ensures '\n' !in lines[i] && '|' !in lines[i]
    {
      FailureLineAvoids(events[i], '\n');
      FailureLineAvoids(events[i], '|');
    }
    FailuresHeaderAvoids(|events|, '\n');
    FailuresHeaderAvoids(|events|, '|');
    DetailedReadBack("Number of failed connections in the past hour: " + IntToString(|events|), lines,
                     "fail_conn", |events|, FailWarnShown, FailCritShown);
  }

  /** The clients output is the header with the count, one line per client
      in input order, and `num_clients=<count>;10;0;;`, provided no field
      prints a newline or '|'. */
  lemma ClientsReadBack(clients: seq<Client>)
    requires forall i :: 0 <= i < |clients| ==>
               && '\n' !in PyStr(clients[i].description) && '\n' !in PyStr(clients[i].ip) && '\n' !in PyStr(clients[i].mac)
               && '|' !in PyStr(clients[i].description) && '|' !in PyStr(clients[i].ip) && '|' !in PyStr(clients[i].mac)
    ensures var parsed := ParseOutput(ClientsCheck(Fetched(clients)).value.output);
            && parsed.Some?
            && Split(parsed.value.0, '\n') ==
               ["Number of clients connected: " + IntToString(|clients|)]
               + (if |clients| == 0 then [""] else ClientLines(clients))
            && parsed.value.1.key == "num_clients"
            && ParseInt(parsed.value.1.value) == Some(|clients|)
            && ParseInt(parsed.value.1.warn) == Some(10)
            && ParseInt(parsed.value.1.crit) == Some(0)
            && parsed.value.1.min == "" && parsed.value.1.max == ""
  {
    var lines := ClientLines(clients);
    forall i | 0 <= i < |lines|
      ensures '\n' !in lines[i] && '|' !in lines[i]
    {
      ClientLineAvoids(clients[i], '\n');
      ClientLineAvoids(clients[i], '|');
    }
    ClientsHeaderAvoids(|clients|, '\n');
    ClientsHeaderAvoids(|clients|, '|');
    DetailedReadBack("Number of clients connected: " + IntToString(|clients|), lines,
                     "num_clients", |clients|, 10, 0);
  }

  // ---------------------------------------------------------------------
  // Boolean-like fields

  /** The regular expression `^Unconfigured*` matches a name exactly when
      the name begins with "Unconfigure". */
  lemma UnconfiguredPatternIsPrefix(name: string)
    ensures RegexMatches(name) <==> MatchesUnconfigured(name)
  {
    if MatchesUnconfigured(name) {
      assert UnconfiguredStem + seq(0, _ => 'd') == UnconfiguredStem;
      assert PatternMatchesPrefix(name, 0);
    }
    if RegexMatches(name) {
      var n: nat :| PatternMatchesPrefix(name, n);
      var k := |UnconfiguredStem|;
      assert name[..k] == name[..k + n][..k];
      assert (UnconfiguredStem + seq(n, _ => 'd'))[..k] == UnconfiguredStem;
    }
  }

  /** An unconfigured SSID exits 1 whatever its enabled flag; otherwise the
      flag decides through `str()`, so the boolean and the string agree,
      and any other value prints nothing. */
  lemma SsidDecision(name: string, enabled: Json)
    ensures var r := SsidCheck(Fetched(SsidSettings(name, enabled)));
            && (RegexMatches(name) ==> r == Some(Report(Warning, UnconfiguredMessage)))
            && (!RegexMatches(name) ==>
                  && (r.Some? && r.value.exitCode == Ok <==> enabled == JBool(true) || enabled == JStr("True"))
                  && (r.Some? && r.value.exitCode == Critical <==> enabled == JBool(false) || enabled == JStr("False"))
                  && (r.None? <==> enabled != JBool(true) && enabled != JBool(false)
                                   && enabled != JStr("True") && enabled != JStr("False")))
  {
    UnconfiguredPatternIsPrefix(name);
    PyStrIsTrue(enabled);
    PyStrIsFalse(enabled);
  }

  /** A JSON boolean in a switch-port field matches neither string, so the
      port and PoE checks print nothing for it. */
  lemma SwitchFlagsIgnoreBooleans(a: bool, b: bool, other: Json)
    ensures PortCheck(Fetched(SwitchPort(JBool(a), other))) == None
    ensures PoeCheck(Fetched(SwitchPort(other, JBool(b)))) == None
  {
  }

  // ---------------------------------------------------------------------
  // Worked examples

  lemma DecimalLiterals()
    ensures IntToString(0) == "0" && IntToString(10) == "10" && IntToString(15) == "15"
    ensures IntToString(20) == "20" && IntToString(25) == "25"
  {
    assert NatToString(1) == "1" && NatToString(2) == "2";
    assert NatToString(10) == NatToString(1) + [DigitChar(0)];
    assert NatToString(15) == NatToString(1) + [DigitChar(5)];
    assert NatToString(20) == NatToString(2) + [DigitChar(0)];
    assert NatToString(25) == NatToString(2) + [DigitChar(5)];
  }

  lemma LicenseExample()
    ensures LicenseCheck(Fetched(LicenseState(JStr("OK"), JStr("2025-01-01"))))
            == Some(Report(0, "License status is OK. Expiration Date: 2025-01-01"))
  {
    assert PyStr(JStr("2025-01-01")) == "2025-01-01";
    assert "License status is OK. " + ("Expiration Date: " + "2025-01-01")
        == "License status is OK. Expiration Date: 2025-01-01";
  }

  lemma AuthDecision()
    ensures StageCheck(Auth, Fetched(ConnectionStats(0, 15, 0, 0, 0)))
            == Some(Report(Warning, WithPerf(Tagged(Warning, "Authentications in the past hour: " + IntToString(15)), StagePerf(Auth, 15))))
  {
    var stats := ConnectionStats(0, 15, 0, 0, 0);
    assert StageCount(Auth, stats) == 15 && StageWarn(Auth) == 10;
    assert StageTitle(Auth) + " in the past hour: " == "Authentications in the past hour: ";
  }

  lemma AuthToken()
    ensures RenderPerf(StagePerf(Auth, 15)) == "conn_auth=15;10;20;;"
  {
    DecimalLiterals();
    assert StagePerf(Auth, 15) == PerfData("conn_auth", "15", "10", "20", "", "");
    assert Join(["", ""], ";") == ";";
    assert Join(["20", "", ""], ";") == "20;;";
    assert Join(["10", "20", "", ""], ";") == "10;20;;";
  }

  lemma AuthTagged()
    ensures Tagged(Warning, "Authentications in the past hour: " + "15")
         == "WARNING: Authentications in the past hour: 15"
  {
    assert StatusLabel(Warning) + ": " == "WARNING: ";
  }

  lemma AuthExample()
    ensures StageCheck(Auth, Fetched(ConnectionStats(0, 15, 0, 0, 0)))
            == Some(Report(1, "WARNING: Authentications in the past hour: 15 | conn_auth=15;10;20;;"))
  {
    assert "WARNING: Authentications in the past hour: 15" + " | " + "conn_auth=15;10;20;;"
        == "WARNING: Authentications in the past hour: 15 | conn_auth=15;10;20;;";
    DecimalLiterals();
    AuthDecision();
    AuthToken();
    AuthTagged();
  }

  lemma NoFailuresToken()
    ensures RenderPerf(FailuresPerf(0)) == "fail_conn=0;15;25;;"
  {
    DecimalLiterals();
    assert FailuresPerf(0) == PerfData("fail_conn", "0", "15", "25", "", "");
    assert Join(["", ""], ";") == ";";
    assert Join(["25", "", ""], ";") == "25;;";
    assert Join(["15", "25", "", ""], ";") == "15;25;;";
  }

  lemma NoFailuresText()
    ensures FailuresText([]) == "Number of failed connections in the past hour: 0\n"
  {
    DecimalLiterals();
    assert FailureLines([]) == [];
  }

  lemma NoFailuresExample()
    ensures FailedConnectionsCheck(Fetched([]))
            == Some(Report(0, "Number of failed connections in the past hour: 0\n | fail_conn=0;15;25;;"))
  {
    assert "Number of failed connections in the past hour: 0\n" + " | " + "fail_conn=0;15;25;;"
        == "Number of failed connections in the past hour: 0\n | fail_conn=0;15;25;;";
    NoFailuresToken();
    NoFailuresText();
  }
}

=== FILE: pyjson.dfy ===
/** The scalar values a decoded dashboard response can hold, and Python's
    `str()` of each, which is how the checks splice fields into their output. */
module PyJson {
  import opened Decimal

  datatype Json = JNull | JBool(b: bool) | JInt(i: int) | JStr(s: string)

  /** Python's `str(v)` for a value `json()` decoded. */
  function PyStr(v: Json): string {
    match v
    case JNull => "None"
    case JBool(b) => if b then "True" else "False"
    case JInt(i) => IntToString(i)
    case JStr(s) => s
  }

  /** `str(v) == 'True'` holds exactly for the boolean true and the string "True". */
  lemma PyStrIsTrue(v: Json)
    ensures PyStr(v) == "True" <==> v == JBool(true) || v == JStr("True")
  {
    if v.JInt? {
      var t := IntToString(v.i);
      assert IsDigit(t[0]) || t[0] == '-';
    }
  }

  /** `str(v) == 'False'` holds exactly for the boolean false and the string "False". */
  lemma PyStrIsFalse(v: Json)
    ensures PyStr(v) == "False" <==> v == JBool(false) || v == JStr("False")
  {
    if v.JInt? {
      var t := IntToString(v.i);
      assert IsDigit(t[0]) || t[0] == '-';
    }
  }
}

=== FILE: text.dfy ===
/** The string operations the plugin output is built from (Python's
    `sep.join`, `str.split`) and searched with (first occurrence of a
    character), with the facts that make them inverse to each other. */
module Text {
  import opened Wrappers

  predicate StartsWith(s: string, prefix: string) {
    |prefix| <= |s| && s[..|prefix|] == prefix
  }

  predicate EndsWith(s: string, suffix: string) {
    |suffix| <= |s| && s[|s| - |suffix|..] == suffix
  }

  lemma EndsWithAppended(a: string, b: string)
    ensures EndsWith(a + b, b)
  {
    assert (a + b)[|a|..] == b;
  }

  lemma StartsWithPrepended(a: string, b: string)
    ensures StartsWith(a + b, a)
  {
    assert (a + b)[..|a|] == a;
  }

  /** Two prefixes that differ in their first character exclude each other. */
  lemma StartsWithExcludes(s: string, a: string, b: string)
    requires |a| > 0 && |b| > 0 && a[0] != b[0]
    requires StartsWith(s, a)
    ensures !StartsWith(s, b)
  {
    assert s[0] == s[..|a|][0];
  }

  /** Python's `sep.join(parts)`. */
  function Join(parts: seq<string>, sep: string): string
    decreases |parts|
  {
    if |parts| == 0 then ""
    else if |parts| == 1 then parts[0]
    else parts[0] + sep + Join(parts[1..], sep)
  }

  /** Python's `s.split(c)` for a one-character separator: the maximal
      separator-free pieces, always at least one. */
  function Split(s: string, c: char): (parts: seq<string>)
    ensures |parts| > 0
    ensures forall i :: 0 <= i < |parts| ==> c !in parts[i]
    decreases |s|
  {
    if |s| == 0 then [""]
    else
      var rest := Split(s[1..], c);
      if s[0] == c then [""] + rest
      else [[s[0]] + rest[0]] + rest[1..]
  }

  /** Index of the first `c` in `s`. */
  function FirstIndex(s: string, c: char): (r: Option<nat>)
    ensures r.None? ==> c !in s
    ensures r.Some? ==> r.value < |s| && s[r.value] == c && c !in s[..r.value]
    decreases |s|
  {
    if |s| == 0 then None
    else if s[0] == c then Some(0)
    else match FirstIndex(s[1..], c)
      case None => None
      case Some(i) => Some(i + 1)
  }

  lemma FirstIndexAt(s: string, c: char, i: nat)
    requires i < |s| && s[i] == c && c !in s[..i]
    ensures FirstIndex(s, c) == Some(i)
  {
  }

  /** A character absent from every part and from the separator is absent from the join. */
  lemma {:induction false} JoinAvoids(parts: seq<string>, sep: string, c: char)
    requires c !in sep
    requires forall i :: 0 <= i < |parts| ==> c !in parts[i]
    ensures c !in Join(parts, sep)
    decreases |parts|
  {
    if |parts| > 1 {
      JoinAvoids(parts[1..], sep, c);
    }
  }

  /** Joining a head onto a non-empty tail puts exactly one separator between them. */
  lemma JoinCons(head: string, rest: seq<string>, sep: string)
    requires |rest| > 0
    ensures Join([head] + rest, sep) == head + sep + Join(rest, sep)
  {
    assert ([head] + rest)[1..] == rest;
  }

  lemma {:induction false} SplitWithoutSeparator(s: string, c: char)
    requires c !in s
    ensures Split(s, c) == [s]
    decreases |s|
  {
    if |s| > 0 {
      SplitWithoutSeparator(s[1..], c);
      assert [s[0]] + s[1..] == s;
    }
  }

  lemma {:induction false} SplitAtSeparator(a: string, b: string, c: char)
    requires c !in a
    ensures Split(a + [c] + b, c) == [a] + Split(b, c)
    decreases |a|
  {
    var s := a + [c] + b;
    if |a| == 0 {
      assert s[1..] == b;
    } else {
      assert s[1..] == a[1..] + [c] + b;
      SplitAtSeparator(a[1..], b, c);
      assert [a[0]] + a[1..] == a;
    }
  }

  /** `split` undoes `join` when no part contains the separator. */
  lemma {:induction false} SplitJoin(parts: seq<string>, c: char)
    requires |parts| > 0
    requires forall i :: 0 <= i < |parts| ==> c !in parts[i]
    ensures Split(Join(parts, [c]), c) == parts
    decreases |parts|
  {
    if |parts| == 1 {
      SplitWithoutSeparator(parts[0], c);
    } else {
      SplitAtSeparator(parts[0], Join(parts[1..], [c]), c);
      SplitJoin(parts[1..], c);
      assert [parts[0]] + parts[1..] == parts;
    }
  }
}

=== FILE: wrappers.dfy ===
/** The optional value used throughout the model: a check that prints
    nothing, a search that finds nothing, a parse that fails. */
module Wrappers {

  datatype Option<+T> = None | Some(value: T)
}
